=== FILE: README.md ===
# Commons MediaWiki client core, modelled in Dafny

This project models four small, deterministic parts of the Wikimedia Commons Android app's
client layer as pure functions over explicit state:

- **Login and session persistence** (`ApacheHttpClientMediaWikiApi`). This covers the two `clientlogin`
  requests (password and password plus two-factor code), the interpretation of the returned status
  (`PASS`, `FAIL`, a TOTP challenge, or anything else) and the writes to the key/value store. It also
  covers the upload log-event query and its result, the block-expiry decision, and logout.
- **Depiction and image search** (`DepictsClient`). This covers thumbnail URL derivation: strip the
  namespace, replace spaces, then build a hash-bucketed path from the MD5 hex text. It also covers the
  zero-padded hex rendering of the digest, the mapping of search hits to items and media, and the
  per-query continuation store.
- **The sub-class list presenter** (`SubDepictionListPresenter`). This covers result accumulation,
  error reporting, view attach and detach, the parent/child query choice, and recent-search saving.
- **Upload descriptions** (`UploadMediaDetail`). This covers the field defaults and setters, `isEmpty`,
  and the `{{lang|1=text}}` serialisation done by `formatList` and `formatCaptions`.

Files and modules, one per source component:

| file | module | models |
|---|---|---|
| `wrappers.dfy` | `Wrappers` | Java `null` as `Option`, exceptions as `Result`, `TextUtils.isEmpty` |
| `api_result.dfy` | `ApiResult` | requests as parameter maps, the transport, `CustomApiResult` path lookups |
| `kv_store.dfy` | `KvStore` | `JsonKvStore`'s `putBoolean` / `putString` / `remove` |
| `media_wiki_api.dfy` | `MediaWikiApi` | `ApacheHttpClientMediaWikiApi` |
| `md5_hex.dfy` | `Md5Hex` | the hex and padding half of `DepictsClient.getMd5` |
| `depicts_client.dfy` | `DepictsClient` | `DepictsClient` |
| `sub_depiction_list_presenter.dfy` | `SubDepictionListPresenter` | `SubDepictionListPresenter` |
| `upload_media_detail.dfy` | `UploadMediaDetail` | `UploadMediaDetail` |

These collaborators are parameters, not models:

- **The HTTP transport** is a total function `Request -> Reply`. A reply carries the response tree
  and the auth cookie the HTTP client holds afterwards, or an `IOException`.
- **The MD5 digest** (RFC 1321) is a function from the title to 16 bytes.
- **The two date parsers** are functions `string -> Option<Date>`, where `None` stands for a
  `ParseException`.
- **`Media.from`** is a function parameter.
- **The answers of the parent/child class queries** are a function parameter.
- **"Now"** is a plain argument.

Three behaviours of the code worth noting:

- **Continuation store.** The store in `DepictsClient` is only written, never read back into a request
  in this file. The model therefore says nothing about merging continuations into outgoing requests.
- **Two-factor detection.** It checks the request id `TOTPAuthenticationRequest` as well as the
  provider text.
- **Logout.** It writes nothing to the key/value store.

## Model

| member | source | states |
|---|---|---|
| `MediaWikiApi.NewClientAsWritten` | app/src/main/java/fr/free/nrw/commons/mwapi/ApacheHttpClientMediaWikiApi.java:48-62 | the constructor as written leaves the store field null and the client logged out |
| `MediaWikiApi.NewClient` | app/src/main/java/fr/free/nrw/commons/mwapi/ApacheHttpClientMediaWikiApi.java:48-62 | the intended constructor installs the given store |
| `MediaWikiApi.SetAuthCookieOnLogin` | app/src/main/java/fr/free/nrw/commons/mwapi/ApacheHttpClientMediaWikiApi.java:140-148 | throws NullPointerException exactly when the store is null; logging in records `isUserLoggedIn=true` and the transport's cookie; logging out records `false` and removes the cookie key; no other key changes |
| `MediaWikiApi.PersistAndReturn` | app/src/main/java/fr/free/nrw/commons/mwapi/ApacheHttpClientMediaWikiApi.java:122-133 | the persist-then-return step of each recognised status: returns the code only if the store write succeeded, and leaves the API's login flag and cookie alone |
| `MediaWikiApi.GetErrorCodeToReturn` | app/src/main/java/fr/free/nrw/commons/mwapi/ApacheHttpClientMediaWikiApi.java:118-138 | PASS returns "PASS", sets `isLoggedIn` and persists the login; FAIL returns the message code and persists a logout; a TOTP challenge (status UI, TOTP request id, OATH provider) returns "2FA" and persists a logout; any other status returns "genericerror-"+status with nothing changed; only PASS changes `isLoggedIn` |
| `MediaWikiApi.TwoFactorOnlyOnChallenge` | app/src/main/java/fr/free/nrw/commons/mwapi/ApacheHttpClientMediaWikiApi.java:127-137 | outside FAIL, "2FA" is returned only when all three challenge conditions hold |
| `MediaWikiApi.InterpretPreservesSessionConsistency` | app/src/main/java/fr/free/nrw/commons/mwapi/ApacheHttpClientMediaWikiApi.java:118-148 | every outcome keeps the invariant "stored logged-in flag true implies a cookie is stored; false implies none" |
| `MediaWikiApi.LoginTokenRequest` | app/src/main/java/fr/free/nrw/commons/mwapi/ApacheHttpClientMediaWikiApi.java:102-109 | the token fetch POSTs `action=query`, `meta=tokens`, `type=login` and carries no username or password |
| `MediaWikiApi.PasswordLoginRequest` | app/src/main/java/fr/free/nrw/commons/mwapi/ApacheHttpClientMediaWikiApi.java:73-79 | a POST `clientlogin` carrying the username, password and token verbatim, with `rememberMe=1` and the Commons return URL, and no two-factor parameters |
| `MediaWikiApi.TwoFactorLoginRequest` | app/src/main/java/fr/free/nrw/commons/mwapi/ApacheHttpClientMediaWikiApi.java:92-98 | a POST `clientlogin` carrying the username, password, token and two-factor code verbatim, with `rememberMe=true` and `logincontinue=true`, and no return URL |
| `MediaWikiApi.LoginRequestsDiffer` | app/src/main/java/fr/free/nrw/commons/mwapi/ApacheHttpClientMediaWikiApi.java:70-100 | both login requests POST `clientlogin` with the same username, password and token; the password login adds `rememberMe=1` and `loginreturnurl`; the two-factor login adds `rememberMe=true`, `logincontinue=true` and `OATHToken`, and sends no return URL |
| `MediaWikiApi.LoginWith` | app/src/main/java/fr/free/nrw/commons/mwapi/ApacheHttpClientMediaWikiApi.java:70-109 | a failed token fetch propagates IOException with the state untouched; an IOException never changes the store or the login flag; otherwise the reply to the token-carrying request is interpreted |
| `MediaWikiApi.Login` | app/src/main/java/fr/free/nrw/commons/mwapi/ApacheHttpClientMediaWikiApi.java:70-80 | the password login fetches a token, submits it and interprets the answer; transport failures propagate |
| `MediaWikiApi.LoginWithTwoFactor` | app/src/main/java/fr/free/nrw/commons/mwapi/ApacheHttpClientMediaWikiApi.java:89-100 | the same flow with the two-factor request |
| `MediaWikiApi.AsWrittenPassLoginThrows` | app/src/main/java/fr/free/nrw/commons/mwapi/ApacheHttpClientMediaWikiApi.java:61 | with the constructor as written, a PASS answer throws NullPointerException and nothing is persisted |
| `MediaWikiApi.CorrectedPassLoginPersists` | app/src/main/java/fr/free/nrw/commons/mwapi/ApacheHttpClientMediaWikiApi.java:61 | with the store installed, a PASS answer returns "PASS" and persists the login with the cookie |
| `MediaWikiApi.ParseMwDate` | app/src/main/java/fr/free/nrw/commons/mwapi/ApacheHttpClientMediaWikiApi.java:260-266 | succeeds exactly when the parser does; otherwise raises the wrapping runtime exception |
| `MediaWikiApi.LogEventsRequest` | app/src/main/java/fr/free/nrw/commons/mwapi/ApacheHttpClientMediaWikiApi.java:182-193 | always GETs `list`, `letype`, `leprop`, `leuser`, `lelimit`; `leend` iff lastModified is non-empty; `lestart` iff queryContinue is non-empty; no other parameters |
| `MediaWikiApi.LogEventsOf` | app/src/main/java/fr/free/nrw/commons/mwapi/ApacheHttpClientMediaWikiApi.java:202-214 | succeeds iff every item's timestamp parses; then one event per item node, in node order, with its pageid, title and parsed timestamp |
| `MediaWikiApi.LogEvents` | app/src/main/java/fr/free/nrw/commons/mwapi/ApacheHttpClientMediaWikiApi.java:181-199 | IOException propagates; otherwise the events of the `item` nodes and the `lestart` continuation of the reply |
| `MediaWikiApi.BlockInfoRequest` | app/src/main/java/fr/free/nrw/commons/mwapi/ApacheHttpClientMediaWikiApi.java:236-241 | a GET `query` asking `meta=userinfo` with `uiprop=blockinfo` as XML; it names no user, so the answer is about the session's own account |
| `MediaWikiApi.IsUserBlockedFromCommons` | app/src/main/java/fr/free/nrw/commons/mwapi/ApacheHttpClientMediaWikiApi.java:233-258 | "infinite" blocks; an empty expiry does not; otherwise blocked iff the parsed expiry is after `now`; a transport or parse exception means not blocked |
| `MediaWikiApi.BlockedNeedsExpiry` | app/src/main/java/fr/free/nrw/commons/mwapi/ApacheHttpClientMediaWikiApi.java:242-257 | a block is only ever reported from a reply with a non-empty expiry |
| `MediaWikiApi.Logout` | app/src/main/java/fr/free/nrw/commons/mwapi/ApacheHttpClientMediaWikiApi.java:271-277 | an IOException from the remote call is swallowed, so the call returns normally, and the key/value store is left alone |
| `ApiResult.GetString` | app/src/main/java/fr/free/nrw/commons/mwapi/ApacheHttpClientMediaWikiApi.java:119-130 | a path lookup yields the stored value, or "" when the path is missing |
| `ApiResult.GetNodes` | app/src/main/java/fr/free/nrw/commons/mwapi/ApacheHttpClientMediaWikiApi.java:203 | a node-list lookup yields the stored nodes, or none when the path is missing |
| `Md5Hex.Magnitude` | app/src/main/java/fr/free/nrw/commons/explore/depictions/DepictsClient.java:109 | the unsigned big-endian value of n bytes is below 16^(2n) |
| `Md5Hex.ToHex` | app/src/main/java/fr/free/nrw/commons/explore/depictions/DepictsClient.java:112 | base-16 text is non-empty and lower-case, and has no leading zero for a positive number |
| `Md5Hex.PadTo32` | app/src/main/java/fr/free/nrw/commons/explore/depictions/DepictsClient.java:113-115 | the loop's result is the text with exactly 32 minus its length zeros in front (none when already 32 or longer) |
| `Md5Hex.Md5Hex` | app/src/main/java/fr/free/nrw/commons/explore/depictions/DepictsClient.java:106-116 | for a 16-byte digest: exactly 32 lower-case hex digits; reading them back gives the digest's value; equal to the byte-by-byte two-digit rendering |
| `Md5Hex.ToHexFitsWidth` | app/src/main/java/fr/free/nrw/commons/explore/depictions/DepictsClient.java:112-115 | a value below 16^w never needs more than w digits, so padding never has to truncate |
| `Md5Hex.FixedHexValue` | app/src/main/java/fr/free/nrw/commons/explore/depictions/DepictsClient.java:109-116 | the fixed-width rendering reads back to the number |
| `Md5Hex.BytesHexIsFixed` | app/src/main/java/fr/free/nrw/commons/explore/depictions/DepictsClient.java:106-116 | rendering byte by byte equals rendering the magnitude two digits per byte |
| `DepictsClient.IndexOf` | app/src/main/java/fr/free/nrw/commons/explore/depictions/DepictsClient.java:87 | -1 iff the character is absent; otherwise the position of its first occurrence |
| `DepictsClient.StripNamespace` | app/src/main/java/fr/free/nrw/commons/explore/depictions/DepictsClient.java:87 | a title without ':' is kept whole; otherwise the result is exactly what follows the first ':' |
| `DepictsClient.ReplaceSpaces` | app/src/main/java/fr/free/nrw/commons/explore/depictions/DepictsClient.java:88 | same length; each space becomes '_' and every other character is kept; no space remains |
| `DepictsClient.NormalizedTitle` | app/src/main/java/fr/free/nrw/commons/explore/depictions/DepictsClient.java:87-88 | the file name used in the path contains no space and is no longer than the title |
| `DepictsClient.GetMd5` | app/src/main/java/fr/free/nrw/commons/explore/depictions/DepictsClient.java:97-123 | the hash text is always 32 lower-case hex digits |
| `DepictsClient.GetUrl` | app/src/main/java/fr/free/nrw/commons/explore/depictions/DepictsClient.java:85-91 | the URL is the base, two bucket directories named by the two nibbles of the digest's first byte, then the normalised title and "/640px-" plus the title again |
| `DepictsClient.ThumbUrl` | app/src/main/java/fr/free/nrw/commons/explore/depictions/DepictsClient.java:90 | the concatenation of hash characters 0 and 0–1 is the first digest byte's bucket |
| `DepictsClient.BucketDigits` | app/src/main/java/fr/free/nrw/commons/explore/depictions/DepictsClient.java:90 | the first two hash digits are the high and low nibble of the first digest byte |
| `DepictsClient.ItemsOfHits` | app/src/main/java/fr/free/nrw/commons/explore/depictions/DepictsClient.java:52 | one item per hit, in order, with the hit's label, description and id, no image URL, not selected |
| `DepictsClient.SearchForDepictions` | app/src/main/java/fr/free/nrw/commons/explore/depictions/DepictsClient.java:48-53 | a response with a null hit list fails with NullPointerException; otherwise one item per hit, in order, with the hit's label, description and id, no image URL, not selected |
| `DepictsClient.SafeParseDate` | app/src/main/java/fr/free/nrw/commons/explore/depictions/DepictsClient.java:139-146 | a null string throws NullPointerException, since only ParseException is caught; otherwise null exactly when parsing fails, the parsed date otherwise |
| `DepictsClient.MediaOfHit` | app/src/main/java/fr/free/nrw/commons/explore/depictions/DepictsClient.java:64-73 | a hit with a null title or timestamp throws NullPointerException; otherwise its Media is titled by the hit, has the derived URL, and carries the same parsed timestamp as creation and upload date |
| `DepictsClient.MapMedia` | app/src/main/java/fr/free/nrw/commons/explore/depictions/DepictsClient.java:63-75 | one Media per element, in element order (also used for the pages at lines 133-135) |
| `DepictsClient.MapMediaResult` | app/src/main/java/fr/free/nrw/commons/explore/depictions/DepictsClient.java:63-76 | one Media per element, in order, when every element converts; otherwise an exception raised by one of the elements |
| `DepictsClient.FetchImagesForDepictedItem` | app/src/main/java/fr/free/nrw/commons/explore/depictions/DepictsClient.java:59-79 | searches "haswbstatement:P180="+query; fails with NullPointerException exactly when the response's query part, its hit list, or some hit's title or timestamp is null; otherwise one Media per hit, in order, titled by the hit, with the derived URL and both dates from the hit's timestamp |
| `DepictsClient.FetchImagesIgnoresLimit` | app/src/main/java/fr/free/nrw/commons/explore/depictions/DepictsClient.java:59-60 | the limit argument changes nothing |
| `DepictsClient.ResponseToMediaList` | app/src/main/java/fr/free/nrw/commons/explore/depictions/DepictsClient.java:125-137 | a null response, query or page list gives no media and leaves the store alone; otherwise `store[key]` becomes the response's continuation (even a null one) and there is one Media per page in order; other keys are never touched |
| `DepictsClient.FetchSequenceConcatenates` | app/src/main/java/fr/free/nrw/commons/explore/depictions/DepictsClient.java:125-137 | over successive calls for one key, the media are all pages' media in order; the key ends with the last paged response's continuation (unchanged if none paged); other keys are untouched |
| `SubDepictionListPresenter.NewPresenter` | app/src/main/java/fr/free/nrw/commons/depictions/SubClass/SubDepictionListPresenter.java:40-57 | a new presenter holds the dummy view, an empty list and a null query (the constructor takes no query and nothing in the class assigns one) |
| `SubDepictionListPresenter.OnAttachView` | app/src/main/java/fr/free/nrw/commons/depictions/SubClass/SubDepictionListPresenter.java:58-61 | installs the given view and keeps the list and query |
| `SubDepictionListPresenter.OnDetachView` | app/src/main/java/fr/free/nrw/commons/depictions/SubClass/SubDepictionListPresenter.java:63-66 | restores the dummy view and keeps the list and query |
| `SubDepictionListPresenter.DetachUndoesAttach` | app/src/main/java/fr/free/nrw/commons/depictions/SubClass/SubDepictionListPresenter.java:58-66 | attaching then detaching returns a detached presenter to its former state |
| `SubDepictionListPresenter.HandleSuccess` | app/src/main/java/fr/free/nrw/commons/depictions/SubClass/SubDepictionListPresenter.java:119-130 | null or empty with nothing loaded: error view, list unchanged; empty after earlier results: last page, list unchanged; otherwise the page is appended and passed to `onSuccess`; the step throws exactly when an attached view throws on the call it makes, and a throwing `onSuccess` leaves the page appended; the old list is always a prefix of the new |
| `SubDepictionListPresenter.HandlePagesAccumulates` | app/src/main/java/fr/free/nrw/commons/depictions/SubClass/SubDepictionListPresenter.java:119-130 | after any run of handleSuccess calls the list is the old list followed by all pages' items in order, whatever the view throws |
| `SubDepictionListPresenter.HandleError` | app/src/main/java/fr/free/nrw/commons/depictions/SubClass/SubDepictionListPresenter.java:135-144 | the error view is shown first, then the snackbar unless showing the error view threw; the exception is swallowed and the state is unchanged |
| `SubDepictionListPresenter.InitSubDepictionList` | app/src/main/java/fr/free/nrw/commons/depictions/SubClass/SubDepictionListPresenter.java:93-107 | parent QIDs are requested iff `isParentClass`, child QIDs otherwise, for the given qid; a delivered list goes to handleSuccess, and if that throws its exception goes on to handleError; an error goes to handleError; no exception escapes |
| `SubDepictionListPresenter.SaveQuery` | app/src/main/java/fr/free/nrw/commons/depictions/SubClass/SubDepictionListPresenter.java:68-79 | exactly one save; a new record (no id, the query, now) when none is found, else the found record with lastSearched set to now; a null query is looked up and saved like any other; in the modelled table, find(query) afterwards returns the saved record and other queries are unaffected |
| `UploadMediaDetail.NewDetail` | app/src/main/java/fr/free/nrw/commons/upload/UploadMediaDetail.java:10-14 | defaults: no language or texts, `selectedLanguageIndex = -1`, not manually added, hence empty |
| `UploadMediaDetail.SetCaptionText` | app/src/main/java/fr/free/nrw/commons/upload/UploadMediaDetail.java:32-34 | the caption text reads back as set; every other field keeps its value |
| `UploadMediaDetail.SetLanguageCode` | app/src/main/java/fr/free/nrw/commons/upload/UploadMediaDetail.java:46-48 | the language code reads back as set; every other field keeps its value |
| `UploadMediaDetail.SetDescriptionText` | app/src/main/java/fr/free/nrw/commons/upload/UploadMediaDetail.java:54-56 | the description text reads back as set; every other field keeps its value |
| `UploadMediaDetail.SetSelectedLanguageIndex` | app/src/main/java/fr/free/nrw/commons/upload/UploadMediaDetail.java:68-70 | the selected language index reads back as set; every other field keeps its value |
| `UploadMediaDetail.SetManuallyAdded` | app/src/main/java/fr/free/nrw/commons/upload/UploadMediaDetail.java:84-86 | the manually-added flag reads back as set; every other field keeps its value |
| `UploadMediaDetail.IsEmpty` | app/src/main/java/fr/free/nrw/commons/upload/UploadMediaDetail.java:106-108 | a null or "" description makes a detail empty; a non-empty detail has a description of at least one character; two details with the same description agree on emptiness |
| `UploadMediaDetail.Piece` | app/src/main/java/fr/free/nrw/commons/upload/UploadMediaDetail.java:96-101 | a detail contributes nothing exactly when it is empty (description null or "") |
| `UploadMediaDetail.FormatListAppend` | app/src/main/java/fr/free/nrw/commons/upload/UploadMediaDetail.java:94-104 | formatList(a ++ b) == formatList(a) + formatList(b) |
| `UploadMediaDetail.FormatList` | app/src/main/java/fr/free/nrw/commons/upload/UploadMediaDetail.java:94-104 | the result is "" exactly when every detail is empty, including for no details |
| `UploadMediaDetail.FormatListSingleton` | app/src/main/java/fr/free/nrw/commons/upload/UploadMediaDetail.java:96-101 | one non-empty detail renders as the language template: double braces around the language code ("null" when null), a vertical bar, "1=" and the description; an empty one renders as nothing; with `FormatListAppend` this determines formatList on every list |
| `UploadMediaDetail.FormatListExample` | app/src/main/java/fr/free/nrw/commons/upload/UploadMediaDetail.java:92-104 | an "en" detail "a" followed by a null-language detail "b" renders as the "en" template of "a" followed by the "null" template of "b", exactly as the lemma spells out |
| `UploadMediaDetail.IsEmptyReadsOnlyDescription` | app/src/main/java/fr/free/nrw/commons/upload/UploadMediaDetail.java:106-108 | two details with the same description text agree on emptiness |
| `UploadMediaDetail.FormatListReadsOnlyDescriptions` | app/src/main/java/fr/free/nrw/commons/upload/UploadMediaDetail.java:94-104 | only language codes and description texts affect the output; caption text does not |
| `UploadMediaDetail.FormatCaptions` | app/src/main/java/fr/free/nrw/commons/upload/UploadMediaDetail.java:16-26 | the StringBuilder loop equals formatList on every input |

## Left out

- Transport setup (scheme registry, SSL, user agent, debug interceptor) and `CustomMwApi` internals are not modelled: they are I/O plumbing. A response is a tree of path-addressed strings and node lists.
- `getLoginToken` and `isUserBlockedFromCommons` each set `action=query` twice (once by `action`, once by `param`). Parameter maps collapse the duplicate, so the model does not show it.
- A `null` result from `CustomMwApi.get` or `CustomMwApi.post` (dereferenced by `login` and `getLoginToken`) is not modelled. The transport either answers or throws.
- `parseWikicode`, `fetchMediaByFilename` and `revisionsByFilename` are single request/lookup pass-throughs and are not modelled.
- The MD5 compression function and ISO-8601 parsing are foreign library calls. They are parameters. The title's byte encoding is folded into the digest function.
- Rx scheduling, `CompositeDisposable` and the 15-second timeout are concurrency and timing concerns. `fetchThumbnailForEntityId` is therefore not modelled: it depends on `getP18ForItem` and the timeout.
- `getP18ForItem`, `getParentQIDs`, `getChildQIDs`, `Media.from` and `RecentSearchesDao` are not part of this model, and their behaviour is not visible. `getParentQIDs`, `getChildQIDs` and `Media.from` are parameters; `getP18ForItem` is unused, since `fetchThumbnailForEntityId` is left out. The DAO is stood in for by a table keyed by query text plus a log of saves. The find-after-save clauses of `SubDepictionListPresenter.SaveQuery` are properties of that table, not of the real DAO.
- The presenter's depicted item (a different class from the one `DepictsClient` builds) is an abstract type: the presenter never reads its fields.
- The reflective proxy view is a `Dummy` view value. The calls made on it are still reported, though the dummy ignores them.
- `getQuery` and the plain getters are field reads.
- `CategoriesContract` holds interface declarations only, and `MainActivityTest` is a UI test.
- `MediaWikiApi.Logout`: what `CustomMwApi.logout` does to its own login flag and cookie is not visible, so the model only states that the key/value store is untouched and that an IOException is swallowed. An unchecked exception from the remote call, which would propagate, is not modelled.
- `SubDepictionListPresenter.InitSubDepictionList`: a `null` `Boolean` argument, which would throw on unboxing, is not modelled. Each query delivers one emission.
- `DepictsClient.SearchForDepictions`: the response stream is taken as a single response. The query text and limit go to an interface that is not part of this model. Null elements inside a hit list are not modelled.
- `DepictsClient.FetchImagesForDepictedItem`: the response stream is taken as a single response, and a null response object is not modelled. Null elements inside a hit list are not modelled either.

## Findings

| source | as written | input that shows it | evidently intended | confidence | as-written member | corrected member |
|---|---|---|---|---|---|---|
| app/src/main/java/fr/free/nrw/commons/mwapi/ApacheHttpClientMediaWikiApi.java:61 | the constructor assigns the store field to itself, so it stays null | any clientlogin answer with status PASS (likewise FAIL or a TOTP challenge) on a freshly constructed client: `setAuthCookieOnLogin` throws NullPointerException | the application's key/value store is installed, so the session is persisted | high; not executed | `MediaWikiApi.AsWrittenPassLoginThrows` | `MediaWikiApi.CorrectedPassLoginPersists` |


=== FILE: api_result.dfy ===
/**
 * The HTTP layer as the core sees it: parameterised requests, a transport
 * that answers each request, and the response tree read through path
 * lookups (CustomApiResult).
 */
module ApiResult {

  /** A response node: attribute/element values and child node lists, both addressed by path. */
  datatype Node = Node(values: map<string, string>, children: map<string, seq<Node>>)

  /** CustomApiResult.getString: the value at a path, or "" when the path is missing. */
  function GetString(n: Node, path: string): (s: string)
    ensures path !in n.values ==> s == ""
    ensures path in n.values ==> s == n.values[path]
  {
    if path in n.values then n.values[path] else ""
  }

  /** CustomApiResult.getNodes: the child nodes at a path, or none when it is missing. */
  function GetNodes(n: Node, path: string): (ns: seq<Node>)
    ensures path !in n.children ==> ns == []
    ensures path in n.children ==> ns == n.children[path]
  {
    if path in n.children then n.children[path] else []
  }

  datatype Verb = Get | Post

  /** A request parameter: RequestBuilder.param takes strings and ints. */
  datatype Param = Text(s: string) | Number(n: int)

  /** A request as built by CustomMwApi.action(...).param(...): the verb and a flat parameter map. */
  datatype Request = Request(verb: Verb, params: map<string, Param>)

  /** The request carries parameter `key` with value `v`. */
  predicate HasParam(r: Request, key: string, v: Param)
  {
    key in r.params && r.params[key] == v
  }

  /**
   * What the transport gives back for one request: the response tree and
   * the auth cookie the HTTP client holds afterwards, or an IOException.
   */
  datatype Reply = Replied(result: Node, authCookie: string) | IoFailure

  /** The transport: a deterministic answer per request (network behaviour is not modelled). */
  type Transport = Request -> Reply
}

=== FILE: depicts_client.dfy ===
/**
 * DepictsClient: depiction search, the images depicting an entity, their
 * thumbnail URLs, and the per-query continuation store.
 */
module DepictsClient {

  import opened Wrappers
  import Md5Hex

  /** MessageDigest MD5 over a title's bytes (RFC 1321); not modelled, only its 16-byte shape. */
  type Md5 = string -> Md5Hex.Digest

  const ThumbBaseUrl := "https://upload.wikimedia.org/wikipedia/commons/thumb/"
  const ThumbWidthPrefix := "/640px-"
  const DepictsProperty := "haswbstatement:P180="

  /** A depicted entity as the UI shows it; imageUrl None until a thumbnail is fetched. */
  datatype DepictedItem = DepictedItem(labelText: string, description: string, imageUrl: Option<string>, isSelected: bool, entityId: string)

  /** One hit of the depiction search. */
  datatype DepictSearchItem = DepictSearchItem(id: string, labelText: string, description: string)

  /** One hit of the image search: a file title and its timestamp text, either of which may be null. */
  datatype ImageSearchHit = ImageSearchHit(title: Option<string>, timestamp: Option<string>)

  /** Neither the title nor the timestamp of the hit is null. */
  predicate HitIsComplete(hit: ImageSearchHit)
  {
    hit.title.Some? && hit.timestamp.Some?
  }

  /** Media as the nine-argument constructor builds it here. */
  datatype Media = Media(
    localUri: Option<string>,
    imageUrl: string,
    filename: string,
    descriptions: map<string, string>,
    description: string,
    dataLength: int,
    dateCreated: Option<Date>,
    dateUploaded: Option<Date>,
    creator: string)

  // ---------------------------------------------------------------------
  // Thumbnail URLs
  // ---------------------------------------------------------------------

  /** String.indexOf(char): the first position of `c`, or -1. */
  function IndexOf(s: string, c: char): (i: int)
    ensures -1 <= i < |s|
    ensures i == -1 <==> c !in s
    ensures i >= 0 ==> s[i] == c && forall j :: 0 <= j < i ==> s[j] != c
    decreases |s|
  {
    if s == [] then -1
    else if s[0] == c then 0
    else
      var j := IndexOf(s[1..], c);
      if j == -1 then -1 else j + 1
  }

  /** title.substring(title.indexOf(':') + 1): drop everything up to the first ':'. */
  function StripNamespace(title: string): (t: string)
    ensures ':' !in title ==> t == title
    ensures ':' in title ==> exists k :: 0 <= k < |title| && title[k] == ':' && t == title[k + 1..] && forall j :: 0 <= j < k ==> title[j] != ':'
  {
    var i := IndexOf(title, ':');
    title[i + 1..]
  }

  /** title.replace(" ", "_"). */
  function ReplaceSpaces(s: string): (r: string)
    ensures |r| == |s|
    ensures forall i :: 0 <= i < |s| ==> r[i] == if s[i] == ' ' then '_' else s[i]
    ensures ' ' !in r
  {
    if s == [] then "" else [if s[0] == ' ' then '_' else s[0]] + ReplaceSpaces(s[1..])
  }

  /** The file name used in the thumbnail path. */
  function NormalizedTitle(title: string): (t: string)
    ensures ' ' !in t
    ensures |t| <= |title|
  {
    ReplaceSpaces(StripNamespace(title))
  }

  /** getMd5 of the normalised title. */
  function GetMd5(md5: Md5, input: string): (h: string)
    ensures |h| == Md5Hex.HashTextLength && Md5Hex.IsLowerHex(h)
  {
    Md5Hex.Md5Hex(md5(input))
  }

  /**
   * The hash bucket directories for a digest whose first byte is `b`:
   * "<high nibble>/<high nibble><low nibble>/".
   */
  function Bucket(b: Md5Hex.byte): (s: string)
  {
    var hi := Md5Hex.HexDigit(b / 16);
    [hi, '/', hi, Md5Hex.HexDigit(b % 16), '/']
  }

  /**
   * getUrl: the base, two directories named after the first hash digits,
   * then the normalised title and its 640px rendition. The hash digits used
   * are the two nibbles of the digest's first byte.
   */
  function GetUrl(md5: Md5, title: string): (url: string)
    ensures var t := NormalizedTitle(title);
            url == ThumbBaseUrl + Bucket(md5(t)[0]) + t + ThumbWidthPrefix + t
  {
    var t := NormalizedTitle(title);
    ThumbUrl(GetMd5(md5, t), md5(t), t)
  }

  /** The URL getUrl assembles from the hash text `h` of digest `d` and the title `t`. */
  function ThumbUrl(h: string, d: Md5Hex.Digest, t: string): (url: string)
    requires h == Md5Hex.Md5Hex(d)
    ensures url == ThumbBaseUrl + Bucket(d[0]) + t + ThumbWidthPrefix + t
  {
    BucketDigits(d);
    assert [h[0]] + "/" + [h[0], h[1]] + "/" == Bucket(d[0]);
    ThumbBaseUrl + [h[0]] + "/" + [h[0], h[1]] + "/" + t + ThumbWidthPrefix + t
  }

  /** The first two digits of the byte-wise rendering are the first byte's nibbles. */
  lemma {:induction false} BucketDigits(d: seq<Md5Hex.byte>)
    requires |d| >= 1
    ensures Md5Hex.BytesHex(d)[0] == Md5Hex.HexDigit(d[0] / 16)
    ensures Md5Hex.BytesHex(d)[1] == Md5Hex.HexDigit(d[0] % 16)
  {
    var init := d[..|d| - 1];
    if |d| > 1 {
      BucketDigits(init);
      assert init[0] == d[0];
      assert Md5Hex.BytesHex(d)[..2 * |init|] == Md5Hex.BytesHex(init);
    }
  }

  // ---------------------------------------------------------------------
  // Searches
  // ---------------------------------------------------------------------

  /** The depiction search's response; its hit list may be null. */
  datatype DepictSearchResponse = DepictSearchResponse(search: Option<seq<DepictSearchItem>>)

  /** The items of the hits: one per hit, in order, without image and unselected. */
  function ItemsOfHits(hits: seq<DepictSearchItem>): (items: seq<DepictedItem>)
    ensures |items| == |hits|
    ensures forall i :: 0 <= i < |hits| ==>
      && items[i].labelText == hits[i].labelText
      && items[i].description == hits[i].description
      && items[i].entityId == hits[i].id
      && items[i].imageUrl.None?
      && !items[i].isSelected
  {
    if hits == [] then []
    else [DepictedItem(hits[0].labelText, hits[0].description, None, false, hits[0].id)] + ItemsOfHits(hits[1..])
  }

  /**
   * searchForDepictions: the items of the response's hits; a null hit list
   * makes Observable.fromIterable throw NullPointerException, which the
   * stream delivers as its error.
   */
  function SearchForDepictions(response: DepictSearchResponse): (r: Result<seq<DepictedItem>>)
    ensures r.Err? <==> response.search.None?
    ensures r.Err? ==> r.error == NullPointer
    ensures r.Ok? ==>
      var hits := response.search.value;
      && |r.value| == |hits|
      && forall i :: 0 <= i < |hits| ==>
           && r.value[i].labelText == hits[i].labelText
           && r.value[i].description == hits[i].description
           && r.value[i].entityId == hits[i].id
           && r.value[i].imageUrl.None?
           && !r.value[i].isSelected
  {
    match response.search
    case None => Err(NullPointer)
    case Some(hits) => Ok(ItemsOfHits(hits))
  }

  /**
   * safeParseDate: the parsed date, or null (None) where parsing fails. Only
   * ParseException is caught: a null string makes the parser throw
   * NullPointerException, which escapes.
   */
  function SafeParseDate(parse: DateParser, s: Option<string>): (r: Result<Option<Date>>)
    ensures r.Err? <==> s.None?
    ensures r.Err? ==> r.error == NullPointer
    ensures r.Ok? ==> (r.value.None? <==> parse(s.value).None?)
    ensures r.Ok? && r.value.Some? ==> r.value.value == parse(s.value).value
  {
    match s
    case None => Err(NullPointer)
    case Some(text) =>
      match parse(text)
      case None => Ok(None)
      case Some(v) => Ok(Some(v))
  }

  /**
   * The Media built from one image hit. getUrl dereferences the title
   * first, then safeParseDate the timestamp; either being null throws
   * NullPointerException.
   */
  function MediaOfHit(md5: Md5, parse: DateParser, hit: ImageSearchHit): (r: Result<Media>)
    ensures r.Err? <==> !HitIsComplete(hit)
    ensures r.Err? ==> r.error == NullPointer
    ensures r.Ok? ==>
      && r.value.filename == hit.title.value
      && r.value.imageUrl == GetUrl(md5, hit.title.value)
      && r.value.dateCreated == r.value.dateUploaded == SafeParseDate(parse, hit.timestamp).value
  {
    if !HitIsComplete(hit) then Err(NullPointer)
    else
      var title := hit.title.value;
      var date := SafeParseDate(parse, hit.timestamp).value;
      Ok(Media(None, GetUrl(md5, title), title, map[], "", 0, date, date, ""))
  }

  /** One Media per element, in order. */
  function MapMedia<T>(xs: seq<T>, toMedia: T -> Media): (ms: seq<Media>)
    ensures |ms| == |xs|
    ensures forall i :: 0 <= i < |xs| ==> ms[i] == toMedia(xs[i])
    decreases |xs|
  {
    if xs == [] then [] else [toMedia(xs[0])] + MapMedia(xs[1..], toMedia)
  }

  /**
   * One Media per element, in order, when every element converts; otherwise
   * the exception of the first element that does not, as a loop that
   * throws midway would.
   */
  function MapMediaResult<T>(xs: seq<T>, toMedia: T -> Result<Media>): (r: Result<seq<Media>>)
    ensures r.Ok? <==> forall i :: 0 <= i < |xs| ==> toMedia(xs[i]).Ok?
    ensures r.Ok? ==> |r.value| == |xs| && forall i :: 0 <= i < |xs| ==> r.value[i] == toMedia(xs[i]).value
    ensures r.Err? ==> exists i :: 0 <= i < |xs| && toMedia(xs[i]) == Err(r.error)
    decreases |xs|
  {
    if xs == [] then Ok([])
    else
      match toMedia(xs[0])
      case Err(e) => Err(e)
      case Ok(m) =>
        var rest := MapMediaResult(xs[1..], toMedia);
        assert forall i :: 1 <= i < |xs| ==> xs[i] == xs[1..][i - 1];
        match rest
        case Err(e) => Err(e)
        case Ok(ms) => Ok([m] + ms)
  }

  /** The image search's response: its query part and that part's hit list may each be null. */
  datatype SearchQuery = SearchQuery(search: Option<seq<ImageSearchHit>>)
  datatype SearchResponse = SearchResponse(query: Option<SearchQuery>)

  /** The statement-constrained search term, and the media it yielded or the exception. */
  datatype ImagePage = ImagePage(searchTerm: string, media: Result<seq<Media>>)

  /**
   * fetchImagesForDepictedItem: search "haswbstatement:P180=<query>" (limit
   * is not passed on) and build one Media per hit, in order, with the
   * derived thumbnail URL and both dates from the hit's timestamp. A null
   * query part, hit list, hit title or hit timestamp is dereferenced
   * unchecked and throws NullPointerException, which the stream delivers as
   * its error.
   */
  function FetchImagesForDepictedItem(md5: Md5, parse: DateParser, query: string, limit: int, response: SearchResponse): (r: ImagePage)
    ensures r.searchTerm == DepictsProperty + query
    ensures r.media.Ok? <==>
      && response.query.Some? && response.query.value.search.Some?
      && forall i :: 0 <= i < |response.query.value.search.value| ==> HitIsComplete(response.query.value.search.value[i])
    ensures r.media.Err? ==> r.media.error == NullPointer
    ensures r.media.Ok? ==>
      var hits := response.query.value.search.value;
      && |r.media.value| == |hits|
      && forall i :: 0 <= i < |hits| ==>
           && r.media.value[i].filename == hits[i].title.value
           && r.media.value[i].imageUrl == GetUrl(md5, hits[i].title.value)
           && r.media.value[i].dateCreated == r.media.value[i].dateUploaded == SafeParseDate(parse, hits[i].timestamp).value
  {
    var media :=
      if response.query.None? || response.query.value.search.None? then Err(NullPointer)
      else MapMediaResult(response.query.value.search.value, hit => MediaOfHit(md5, parse, hit));
    ImagePage(DepictsProperty + query, media)
  }

  /** The limit argument has no effect on the request or the result. */
  lemma FetchImagesIgnoresLimit(md5: Md5, parse: DateParser, query: string, response: SearchResponse, l1: int, l2: int)
    ensures FetchImagesForDepictedItem(md5, parse, query, l1, response) == FetchImagesForDepictedItem(md5, parse, query, l2, response)
  {
  }

  // ---------------------------------------------------------------------
  // Continuation store
  // ---------------------------------------------------------------------

  /** The continuation parameters of a response (None when the response has none). */
  type Continuation = Option<map<string, string>>

  datatype Query<P> = Query(pages: Option<seq<P>>)
  datatype QueryResponse<P> = QueryResponse(query: Option<Query<P>>, continuation: Continuation)

  /** Per logical query, the continuation last stored for it. */
  type ContinuationStore = map<string, Continuation>

  /** The response, its query and its pages are all non-null. */
  predicate HasPages<P>(response: Option<QueryResponse<P>>)
  {
    response.Some? && response.value.query.Some? && response.value.query.value.pages.Some?
  }


  /** The media of one response, empty when it has no pages. */
  function PageMedia<P>(response: Option<QueryResponse<P>>, from: P -> Media): seq<Media>
  {
    if HasPages(response) then MapMedia(response.value.query.value.pages.value, from) else []
  }

  datatype MediaPage = MediaPage(media: seq<Media>, store: ContinuationStore)

  /**
   * responseToMediaList: a response without pages yields nothing and keeps
   * the store; otherwise store[key] is overwritten with the response's
   * continuation (even a null one) and each page becomes a Media, in order.
   * `from` is Media.from, which is not part of this model.
   */
  function ResponseToMediaList<P>(response: Option<QueryResponse<P>>, key: string, store: ContinuationStore, from: P -> Media): (r: MediaPage)
    ensures !HasPages(response) ==> r.media == [] && r.store == store
    ensures HasPages(response) ==>
      var pages := response.value.query.value.pages.value;
      && key in r.store && r.store[key] == response.value.continuation
      && |r.media| == |pages|
      && (forall i :: 0 <= i < |pages| ==> r.media[i] == from(pages[i]))
    ensures forall k :: k != key ==> (k in r.store <==> k in store)
    ensures forall k :: k != key && k in store ==> r.store[k] == store[k]
  {
    if !HasPages(response) then MediaPage([], store)
    else MediaPage(MapMedia(response.value.query.value.pages.value, from), store[key := response.value.continuation])
  }

  /** Successive calls for one key, each seeing the store the previous one left. */
  function FetchSequence<P>(responses: seq<Option<QueryResponse<P>>>, key: string, store: ContinuationStore, from: P -> Media): MediaPage
  {
    if responses == [] then MediaPage([], store)
    else
      var first := ResponseToMediaList(responses[0], key, store, from);
      var rest := FetchSequence(responses[1..], key, first.store, from);
      MediaPage(first.media + rest.media, rest.store)
  }

  /** The media of all responses, in response order. */
  function AllMedia<P>(responses: seq<Option<QueryResponse<P>>>, from: P -> Media): seq<Media>
  {
    if responses == [] then [] else PageMedia(responses[0], from) + AllMedia(responses[1..], from)
  }

  /** The continuation of the last response that had pages, if any had. */
  function LastContinuation<P>(responses: seq<Option<QueryResponse<P>>>): Option<Continuation>
  {
    if responses == [] then None
    else if HasPages(responses[|responses| - 1]) then Some(responses[|responses| - 1].value.continuation)
    else LastContinuation(responses[..|responses| - 1])
  }

  /**
   * Paging through a query: the media are the pages' media concatenated in
   * order; store[key] ends as the last paged response's continuation (kept
   * as it was when no response had pages); other keys are untouched.
   */
  lemma {:induction false} FetchSequenceConcatenates<P>(responses: seq<Option<QueryResponse<P>>>, key: string, store: ContinuationStore, from: P -> Media)
    ensures FetchSequence(responses, key, store, from).media == AllMedia(responses, from)
    ensures var s := FetchSequence(responses, key, store, from).store;
            match LastContinuation(responses)
            case None => (key in s <==> key in store) && (key in store ==> s[key] == store[key])
            case Some(c) => key in s && s[key] == c
    ensures var s := FetchSequence(responses, key, store, from).store;
            forall k :: k != key ==> (k in s <==> k in store) && (k in store ==> s[k] == store[k])
  {
    if responses != [] {
      var first := ResponseToMediaList(responses[0], key, store, from);
      FetchSequenceConcatenates(responses[1..], key, first.store, from);
      LastContinuationSplit(responses);
    }
  }

  /** LastContinuation read from the front: the rest's, unless the rest never paged. */
  lemma {:induction false} LastContinuationSplit<P>(responses: seq<Option<QueryResponse<P>>>)
    requires responses != []
    ensures LastContinuation(responses) ==
      match LastContinuation(responses[1..])
      case Some(c) => Some(c)
      case None => if HasPages(responses[0]) then Some(responses[0].value.continuation) else None
  {
    var n := |responses|;
    if n > 1 {
      var init := responses[..n - 1];
      LastContinuationSplit(init);
      assert init[1..] == responses[1..][..n - 2];
      assert responses[1..][n - 2] == responses[n - 1];
    }
  }
}

=== FILE: kv_store.dfy ===
/** The persisted key/value store (JsonKvStore) as far as the login code uses it. */
module KvStore {

  import opened Wrappers

  datatype Value = BoolValue(b: bool) | StringValue(s: string)

  /** One map for every key: `remove` drops a key whatever type it was written with. */
  datatype Store = Store(entries: map<string, Value>)

  function PutBoolean(st: Store, key: string, b: bool): (r: Store)
    ensures key in r.entries && r.entries[key] == BoolValue(b)
    ensures forall k :: k != key ==> Lookup(r, k) == Lookup(st, k)
  {
    Store(st.entries[key := BoolValue(b)])
  }

  function PutString(st: Store, key: string, s: string): (r: Store)
    ensures key in r.entries && r.entries[key] == StringValue(s)
    ensures forall k :: k != key ==> Lookup(r, k) == Lookup(st, k)
  {
    Store(st.entries[key := StringValue(s)])
  }

  function Remove(st: Store, key: string): (r: Store)
    ensures key !in r.entries
    ensures forall k :: k != key ==> Lookup(r, k) == Lookup(st, k)
  {
    Store(map k | k in st.entries && k != key :: st.entries[k])
  }

  /** The value stored under a key, if any. */
  function Lookup(st: Store, key: string): (v: Option<Value>)
  {
    if key in st.entries then Some(st.entries[key]) else None
  }
}

=== FILE: md5_hex.dfy ===
/**
 * DepictsClient.getMd5 after the digest: the 16 digest bytes read as an
 * unsigned number (BigInteger(1, bytes)), rendered in lower-case base 16
 * (BigInteger.toString(16)) and left-padded with '0' to 32 characters.
 * The MD5 compression function itself (RFC 1321) stays abstract.
 */
module Md5Hex {

  type byte = x: int | 0 <= x < 256

  /** A 128-bit MD5 digest as MessageDigest.digest returns it: sixteen bytes. */
  type Digest = d: seq<byte> | |d| == 16 witness [0, 0, 0, 0, 0, 0, 0, 0, 0, 0, 0, 0, 0, 0, 0, 0]

  const HashTextLength := 32

  function Pow16(k: nat): (p: nat)
    ensures p >= 1
  {
    if k == 0 then 1 else 16 * Pow16(k - 1)
  }

  /** BigInteger(1, bytes): the bytes as an unsigned big-endian number. */
  function Magnitude(bs: seq<byte>): (n: nat)
    ensures n < Pow16(2 * |bs|)
  {
    if bs == [] then 0
    else
      var init := bs[..|bs| - 1];
      assert Pow16(2 * |bs|) == 256 * Pow16(2 * |init|);
      Magnitude(init) * 256 + bs[|bs| - 1]
  }

  predicate IsLowerHexDigit(c: char)
  {
    '0' <= c <= '9' || 'a' <= c <= 'f'
  }

  predicate IsLowerHex(s: string)
  {
    forall i :: 0 <= i < |s| ==> IsLowerHexDigit(s[i])
  }

  /** Character.forDigit(d, 16): the lower-case digit for a nibble. */
  function HexDigit(d: nat): (c: char)
    requires d < 16
    ensures IsLowerHexDigit(c)
  {
    if d < 10 then (48 + d) as char else (87 + d) as char
  }

  /** The nibble a lower-case hex digit stands for. */
  function DigitValue(c: char): (d: nat)
    requires IsLowerHexDigit(c)
    ensures d < 16
  {
    if c <= '9' then c as int - 48 else c as int - 87
  }

  /** The number a lower-case hex string denotes (most significant digit first). */
  function HexValue(s: string): nat
    requires IsLowerHex(s)
  {
    if s == [] then 0 else HexValue(s[..|s| - 1]) * 16 + DigitValue(s[|s| - 1])
  }

  /** BigInteger.toString(16) of a non-negative number: no leading zeros, "0" for zero. */
  function ToHex(n: nat): (s: string)
    ensures |s| >= 1 && IsLowerHex(s)
    ensures n > 0 ==> s[0] != '0'
    decreases n
  {
    if n < 16 then [HexDigit(n)] else ToHex(n / 16) + [HexDigit(n % 16)]
  }

  /** The hashtext loop: prepend '0' while shorter than 32 characters. */
  function PadTo32(s: string): (r: string)
    ensures r == Zeros(if |s| < HashTextLength then HashTextLength - |s| else 0) + s
    decreases HashTextLength - |s|
  {
    if |s| < HashTextLength then
      ZerosCons(HashTextLength - |s| - 1);
      assert Zeros(HashTextLength - |s| - 1) + ("0" + s) == Zeros(HashTextLength - |s|) + s;
      PadTo32("0" + s)
    else
      assert Zeros(0) + s == s;
      s
  }

  /** getMd5 after the digest: a 32-digit lower-case rendering of the digest. */
  function Md5Hex(digest: Digest): (h: string)
    ensures |h| == HashTextLength && IsLowerHex(h)
    ensures HexValue(h) == Magnitude(digest)
    ensures h == BytesHex(digest)
  {
    var n := Magnitude(digest);
    ToHexFitsWidth(n, HashTextLength);
    ToHexPadsToFixed(n, HashTextLength);
    FixedHexValue(n, HashTextLength);
    BytesHexIsFixed(digest);
    PadTo32(ToHex(n))
  }

  // ---------------------------------------------------------------------
  // Reference renderings
  // ---------------------------------------------------------------------

  /** Exactly `w` hex digits of `n`, most significant first (the number taken modulo 16^w). */
  function FixedHex(n: nat, w: nat): (s: string)
    ensures |s| == w && IsLowerHex(s)
  {
    if w == 0 then "" else FixedHex(n / 16, w - 1) + [HexDigit(n % 16)]
  }

  /** Each byte as two hex digits, concatenated in order. */
  function BytesHex(bs: seq<byte>): (s: string)
    ensures |s| == 2 * |bs|
  {
    if bs == [] then ""
    else
      var b := bs[|bs| - 1];
      BytesHex(bs[..|bs| - 1]) + [HexDigit(b / 16), HexDigit(b % 16)]
  }

  function Zeros(k: nat): (s: string)
    ensures |s| == k && forall i :: 0 <= i < k ==> s[i] == '0'
  {
    seq(k, _ => '0')
  }

  // ---------------------------------------------------------------------
  // Lemmas
  // ---------------------------------------------------------------------

  lemma {:induction false} FixedHexOfZero(w: nat)
    ensures FixedHex(0, w) == Zeros(w)
  {
    if w > 0 {
      FixedHexOfZero(w - 1);
      assert FixedHex(0, w) == Zeros(w - 1) + ['0'];
    }
  }

  /** A number below 16^w needs at most w digits. */
  lemma {:induction false} ToHexFitsWidth(n: nat, w: nat)
    requires w >= 1 && n < Pow16(w)
    ensures |ToHex(n)| <= w
    decreases n
  {
    if n >= 16 {
      assert w >= 2;
      assert n / 16 < Pow16(w - 1);
      ToHexFitsWidth(n / 16, w - 1);
    }
  }

  /** Left-padding the minimal rendering with zeros gives the fixed-width rendering. */
  lemma {:induction false} ToHexPadsToFixed(n: nat, w: nat)
    requires n < Pow16(w) && |ToHex(n)| <= w
    ensures Zeros(w - |ToHex(n)|) + ToHex(n) == FixedHex(n, w)
    decreases n
  {
    if n < 16 {
      assert w >= 1;
      FixedHexOfZero(w - 1);
      assert FixedHex(n, w) == Zeros(w - 1) + [HexDigit(n)];
    } else {
      var m := n / 16;
      assert w >= 1;
      assert m < Pow16(w - 1);
      ToHexPadsToFixed(m, w - 1);
      assert Zeros(w - |ToHex(n)|) == Zeros(w - 1 - |ToHex(m)|);
      calc {
        Zeros(w - |ToHex(n)|) + ToHex(n);
        Zeros(w - 1 - |ToHex(m)|) + (ToHex(m) + [HexDigit(n % 16)]);
        (Zeros(w - 1 - |ToHex(m)|) + ToHex(m)) + [HexDigit(n % 16)];
        FixedHex(m, w - 1) + [HexDigit(n % 16)];
      }
    }
  }

  lemma ZerosCons(k: nat)
    ensures "0" + Zeros(k) == Zeros(k + 1)
  {
  }

  lemma HexValueSnoc(s: string, c: char)
    requires IsLowerHex(s) && IsLowerHexDigit(c)
    ensures IsLowerHex(s + [c])
    ensures HexValue(s + [c]) == HexValue(s) * 16 + DigitValue(c)
  {
    assert (s + [c])[..|s|] == s;
  }

  /** Reading a fixed-width rendering back gives the number (inverse of FixedHex). */
  lemma {:induction false} FixedHexValue(n: nat, w: nat)
    requires n < Pow16(w)
    ensures HexValue(FixedHex(n, w)) == n
  {
    if w > 0 {
      assert n / 16 < Pow16(w - 1);
      FixedHexValue(n / 16, w - 1);
      HexValueSnoc(FixedHex(n / 16, w - 1), HexDigit(n % 16));
      assert DigitValue(HexDigit(n % 16)) == n % 16;
    }
  }

  /** Rendering byte by byte equals rendering the magnitude with two digits per byte. */
  lemma {:induction false} BytesHexIsFixed(bs: seq<byte>)
    ensures BytesHex(bs) == FixedHex(Magnitude(bs), 2 * |bs|)
  {
    if bs != [] {
      var init := bs[..|bs| - 1];
      var b := bs[|bs| - 1];
      var m := Magnitude(init);
      var n := Magnitude(bs);
      BytesHexIsFixed(init);
      assert n == m * 256 + b;
      assert n / 16 == m * 16 + b / 16;
      assert n % 16 == b % 16;
      assert (m * 16 + b / 16) / 16 == m;
      assert (m * 16 + b / 16) % 16 == b / 16;
      calc {
        FixedHex(n, 2 * |bs|);
        FixedHex(n / 16, 2 * |bs| - 1) + [HexDigit(n % 16)];
        FixedHex(m * 16 + b / 16, 2 * |init| + 1) + [HexDigit(b % 16)];
        (FixedHex(m, 2 * |init|) + [HexDigit(b / 16)]) + [HexDigit(b % 16)];
        BytesHex(init) + [HexDigit(b / 16), HexDigit(b % 16)];
      }
    }
  }
}

=== FILE: media_wiki_api.dfy ===
/**
 * ApacheHttpClientMediaWikiApi: login with and without a two-factor code,
 * interpretation of the clientlogin status, session persistence in the
 * key/value store, the upload log-event query, the block check and logout.
 */
module MediaWikiApi {

  import opened Wrappers
  import opened ApiResult
  import KvStore

  const StatusPath := "/api/clientlogin/@status"
  const MessageCodePath := "/api/clientlogin/@messagecode"
  const RequestIdPath := "/api/clientlogin/requests/_v/@id"
  const ProviderPath := "/api/clientlogin/requests/_v/@provider"
  const LoginTokenPath := "/api/query/tokens/@logintoken"
  const TotpRequestId := "TOTPAuthenticationRequest"
  const TotpProvider := "Two-factor authentication (OATH)."
  const LoggedInKey := "isUserLoggedIn"
  const AuthCookieKey := "getAuthCookie"
  const LoginReturnUrl := "https://commons.wikimedia.org"
  const GenericErrorPrefix := "genericerror-"

  /**
   * The client's state: CustomMwApi's public isLoggedIn flag, the auth
   * cookie its HTTP client currently holds, and the key/value store field
   * (None while that field is null).
   */
  datatype Client = Client(isLoggedIn: bool, authCookie: string, store: Option<KvStore.Store>)

  /** A login attempt's return value (or exception) together with the client state after it. */
  datatype LoginOutcome = LoginOutcome(code: Result<string>, client: Client)

  // ---------------------------------------------------------------------
  // Construction
  // ---------------------------------------------------------------------

  /**
   * The constructor as written: the store field is assigned to itself, so it
   * keeps its default null whatever store the application has.
   */
  function NewClientAsWritten(): (c: Client)
    ensures c.store.None? && !c.isLoggedIn
  {
    var field: Option<KvStore.Store> := None;
    Client(false, "", field)
  }

  /** The constructor as intended: the store the application provides is installed. */
  function NewClient(store: KvStore.Store): (c: Client)
    ensures c.store == Some(store) && !c.isLoggedIn
  {
    Client(false, "", Some(store))
  }

  // ---------------------------------------------------------------------
  // Session persistence
  // ---------------------------------------------------------------------

  /** Every key other than the two session keys reads the same in both stores. */
  ghost predicate OtherKeysUnchanged(after: KvStore.Store, before: KvStore.Store)
  {
    forall k :: k != LoggedInKey && k != AuthCookieKey ==> KvStore.Lookup(after, k) == KvStore.Lookup(before, k)
  }

  /** `after` is `before` with the user recorded as logged in holding `cookie`. */
  ghost predicate RecordsLoggedIn(after: KvStore.Store, before: KvStore.Store, cookie: string)
  {
    && KvStore.Lookup(after, LoggedInKey) == Some(KvStore.BoolValue(true))
    && KvStore.Lookup(after, AuthCookieKey) == Some(KvStore.StringValue(cookie))
    && OtherKeysUnchanged(after, before)
  }

  /** `after` is `before` with the user recorded as logged out and no cookie kept. */
  ghost predicate RecordsLoggedOut(after: KvStore.Store, before: KvStore.Store)
  {
    && KvStore.Lookup(after, LoggedInKey) == Some(KvStore.BoolValue(false))
    && KvStore.Lookup(after, AuthCookieKey) == None
    && OtherKeysUnchanged(after, before)
  }

  /**
   * The persisted session agrees with itself: a stored "logged in" flag
   * comes with a stored cookie, a stored "logged out" flag without one.
   */
  ghost predicate SessionConsistent(st: KvStore.Store)
  {
    && (KvStore.Lookup(st, LoggedInKey) == Some(KvStore.BoolValue(true)) ==> KvStore.Lookup(st, AuthCookieKey).Some?)
    && (KvStore.Lookup(st, LoggedInKey) == Some(KvStore.BoolValue(false)) ==> KvStore.Lookup(st, AuthCookieKey).None?)
  }

  /** setAuthCookieOnLogin: write the session keys, or throw when the store field is null. */
  function SetAuthCookieOnLogin(c: Client, isLoggedIn: bool): (r: Result<KvStore.Store>)
    ensures c.store.None? <==> r.Err?
    ensures r.Err? ==> r.error == NullPointer
    ensures r.Ok? && isLoggedIn ==> RecordsLoggedIn(r.value, c.store.value, c.authCookie)
    ensures r.Ok? && !isLoggedIn ==> RecordsLoggedOut(r.value, c.store.value)
  {
    match c.store
    case None => Err(NullPointer)
    case Some(st) =>
      if isLoggedIn then
        Ok(KvStore.PutString(KvStore.PutBoolean(st, LoggedInKey, true), AuthCookieKey, c.authCookie))
      else
        Ok(KvStore.Remove(KvStore.PutBoolean(st, LoggedInKey, false), AuthCookieKey))
  }

  /** Persist the session flag and return `code`, or let the store's NullPointerException escape. */
  function PersistAndReturn(c: Client, isLoggedIn: bool, code: string): (r: LoginOutcome)
    ensures c.store.None? ==> r == LoginOutcome(Err(NullPointer), c)
    ensures c.store.Some? ==> r.code == Ok(code)
    ensures r.client.isLoggedIn == c.isLoggedIn && r.client.authCookie == c.authCookie
    ensures c.store.Some? && isLoggedIn ==> r.client.store.Some? && RecordsLoggedIn(r.client.store.value, c.store.value, c.authCookie)
    ensures c.store.Some? && !isLoggedIn ==> r.client.store.Some? && RecordsLoggedOut(r.client.store.value, c.store.value)
  {
    match SetAuthCookieOnLogin(c, isLoggedIn)
    case Err(e) => LoginOutcome(Err(e), c)
    case Ok(st) => LoginOutcome(Ok(code), c.(store := Some(st)))
  }

  // ---------------------------------------------------------------------
  // Interpreting a clientlogin result
  // ---------------------------------------------------------------------

  /** The server asks for a TOTP code: status UI with the OATH provider's TOTP request. */
  predicate IsTotpChallenge(res: Node)
  {
    && GetString(res, StatusPath) == "UI"
    && GetString(res, RequestIdPath) == TotpRequestId
    && GetString(res, ProviderPath) == TotpProvider
  }

  /**
   * getErrorCodeToReturn: PASS logs the client in and persists the cookie;
   * FAIL persists a logout and returns the server's message code; a TOTP
   * challenge persists a logout and returns "2FA"; anything else returns
   * "genericerror-<status>" and changes nothing.
   */
  function GetErrorCodeToReturn(c: Client, res: Node): (r: LoginOutcome)
    ensures r.client.authCookie == c.authCookie
    // PASS
    ensures GetString(res, StatusPath) == "PASS" ==>
      && r.client.isLoggedIn
      && (c.store.None? ==> r.code == Err(NullPointer))
      && (c.store.Some? ==> r.code == Ok("PASS") && r.client.store.Some?
                            && RecordsLoggedIn(r.client.store.value, c.store.value, c.authCookie))
    // FAIL
    ensures GetString(res, StatusPath) == "FAIL" ==>
      && r.client.isLoggedIn == c.isLoggedIn
      && (c.store.None? ==> r.code == Err(NullPointer))
      && (c.store.Some? ==> r.code == Ok(GetString(res, MessageCodePath)) && r.client.store.Some?
                            && RecordsLoggedOut(r.client.store.value, c.store.value))
    // two-factor challenge
    ensures IsTotpChallenge(res) ==>
      && r.client.isLoggedIn == c.isLoggedIn
      && (c.store.None? ==> r.code == Err(NullPointer))
      && (c.store.Some? ==> r.code == Ok("2FA") && r.client.store.Some?
                            && RecordsLoggedOut(r.client.store.value, c.store.value))
    // everything else, including UI with another request or provider
    ensures GetString(res, StatusPath) != "PASS" && GetString(res, StatusPath) != "FAIL" && !IsTotpChallenge(res) ==>
      r == LoginOutcome(Ok(GenericErrorPrefix + GetString(res, StatusPath)), c)
    // only a successful status ever sets the logged-in flag
    ensures r.client.isLoggedIn != c.isLoggedIn ==> GetString(res, StatusPath) == "PASS"
  {
    var status := GetString(res, StatusPath);
    if status == "PASS" then
      PersistAndReturn(c.(isLoggedIn := true), true, status)
    else if status == "FAIL" then
      PersistAndReturn(c, false, GetString(res, MessageCodePath))
    else if IsTotpChallenge(res) then
      PersistAndReturn(c, false, "2FA")
    else
      LoginOutcome(Ok(GenericErrorPrefix + status), c)
  }

  /** "2FA" is only returned for a TOTP challenge, unless a FAIL carries that message code. */
  lemma TwoFactorOnlyOnChallenge(c: Client, res: Node)
    requires GetErrorCodeToReturn(c, res).code == Ok("2FA")
    requires GetString(res, StatusPath) != "FAIL"
    ensures IsTotpChallenge(res)
  {
  }

  /** Every login outcome keeps a consistent persisted session consistent. */
  lemma InterpretPreservesSessionConsistency(c: Client, res: Node)
    requires c.store.Some? && SessionConsistent(c.store.value)
    ensures GetErrorCodeToReturn(c, res).client.store.Some?
    ensures SessionConsistent(GetErrorCodeToReturn(c, res).client.store.value)
  {
  }

  // ---------------------------------------------------------------------
  // Login requests
  // ---------------------------------------------------------------------

  /** getLoginToken's request: a POSTed query for a login token. */
  function LoginTokenRequest(): (r: Request)
    ensures r.verb == Post && HasParam(r, "action", Text("query"))
    ensures HasParam(r, "meta", Text("tokens")) && HasParam(r, "type", Text("login"))
    ensures "username" !in r.params && "password" !in r.params
  {
    Request(Post, map["action" := Text("query"), "meta" := Text("tokens"), "type" := Text("login")])
  }

  /** The clientlogin request of login(username, password). */
  function PasswordLoginRequest(username: string, password: string, token: string): (r: Request)
    ensures r.verb == Post && HasParam(r, "action", Text("clientlogin"))
    ensures HasParam(r, "username", Text(username)) && HasParam(r, "password", Text(password))
    ensures HasParam(r, "logintoken", Text(token))
    ensures HasParam(r, "rememberMe", Text("1")) && HasParam(r, "loginreturnurl", Text(LoginReturnUrl))
    ensures "OATHToken" !in r.params && "logincontinue" !in r.params
  {
    Request(Post, map[
      "action" := Text("clientlogin"),
      "rememberMe" := Text("1"),
      "username" := Text(username),
      "password" := Text(password),
      "logintoken" := Text(token),
      "loginreturnurl" := Text(LoginReturnUrl)])
  }

  /** The clientlogin request of login(username, password, twoFactorCode). */
  function TwoFactorLoginRequest(username: string, password: string, token: string, twoFactorCode: string): (r: Request)
    ensures r.verb == Post && HasParam(r, "action", Text("clientlogin"))
    ensures HasParam(r, "username", Text(username)) && HasParam(r, "password", Text(password))
    ensures HasParam(r, "logintoken", Text(token)) && HasParam(r, "OATHToken", Text(twoFactorCode))
    ensures HasParam(r, "rememberMe", Text("true")) && HasParam(r, "logincontinue", Text("true"))
    ensures "loginreturnurl" !in r.params
  {
    Request(Post, map[
      "action" := Text("clientlogin"),
      "rememberMe" := Text("true"),
      "username" := Text(username),
      "password" := Text(password),
      "logintoken" := Text(token),
      "logincontinue" := Text("true"),
      "OATHToken" := Text(twoFactorCode)])
  }

  /**
   * The two clientlogin requests carry the same credentials and token and
   * differ only in how they ask to be remembered and continue the login.
   */
  lemma LoginRequestsDiffer(username: string, password: string, token: string, code: string)
    ensures var p := PasswordLoginRequest(username, password, token).params;
            var q := TwoFactorLoginRequest(username, password, token, code).params;
            && PasswordLoginRequest(username, password, token).verb == Post
            && TwoFactorLoginRequest(username, password, token, code).verb == Post
            && p["action"] == q["action"] == Text("clientlogin")
            && p["username"] == q["username"] == Text(username)
            && p["password"] == q["password"] == Text(password)
            && p["logintoken"] == q["logintoken"] == Text(token)
            && p["rememberMe"] == Text("1") && q["rememberMe"] == Text("true")
            && p["loginreturnurl"] == Text(LoginReturnUrl) && "loginreturnurl" !in q
            && q["logincontinue"] == Text("true") && "logincontinue" !in p
            && q["OATHToken"] == Text(code) && "OATHToken" !in p
            && p.Keys - {"rememberMe", "loginreturnurl"} == q.Keys - {"rememberMe", "logincontinue", "OATHToken"}
  {
  }

  /**
   * Both login overloads: fetch a fresh token, submit the request built
   * around it, interpret the answer. Transport failures propagate.
   */
  function LoginWith(c: Client, transport: Transport, submission: string -> Request): (r: LoginOutcome)
    ensures transport(LoginTokenRequest()).IoFailure? ==> r == LoginOutcome(Err(Io), c)
    ensures r.code.Err? && r.code.error == Io ==> r.client.store == c.store && r.client.isLoggedIn == c.isLoggedIn
    ensures transport(LoginTokenRequest()).Replied? ==>
      var token := GetString(transport(LoginTokenRequest()).result, LoginTokenPath);
      var answer := transport(submission(token));
      && (answer.IoFailure? ==> r.code == Err(Io))
      && (answer.Replied? ==> r == GetErrorCodeToReturn(c.(authCookie := answer.authCookie), answer.result))
  {
    match transport(LoginTokenRequest())
    case IoFailure => LoginOutcome(Err(Io), c)
    case Replied(tokenResult, cookie) =>
      var token := GetString(tokenResult, LoginTokenPath);
      match transport(submission(token))
      case IoFailure => LoginOutcome(Err(Io), c.(authCookie := cookie))
      case Replied(loginResult, loginCookie) => GetErrorCodeToReturn(c.(authCookie := loginCookie), loginResult)
  }

  /** login(username, password). */
  function Login(c: Client, transport: Transport, username: string, password: string): (r: LoginOutcome)
    ensures transport(LoginTokenRequest()).IoFailure? ==> r == LoginOutcome(Err(Io), c)
    ensures transport(LoginTokenRequest()).Replied? ==>
      var token := GetString(transport(LoginTokenRequest()).result, LoginTokenPath);
      var answer := transport(PasswordLoginRequest(username, password, token));
      && (answer.IoFailure? ==> r.code == Err(Io) && r.client.store == c.store)
      && (answer.Replied? ==> r == GetErrorCodeToReturn(c.(authCookie := answer.authCookie), answer.result))
  {
    LoginWith(c, transport, token => PasswordLoginRequest(username, password, token))
  }

  /** login(username, password, twoFactorCode). */
  function LoginWithTwoFactor(c: Client, transport: Transport, username: string, password: string, twoFactorCode: string): (r: LoginOutcome)
    ensures transport(LoginTokenRequest()).IoFailure? ==> r == LoginOutcome(Err(Io), c)
    ensures transport(LoginTokenRequest()).Replied? ==>
      var token := GetString(transport(LoginTokenRequest()).result, LoginTokenPath);
      var answer := transport(TwoFactorLoginRequest(username, password, token, twoFactorCode));
      && (answer.IoFailure? ==> r.code == Err(Io) && r.client.store == c.store)
      && (answer.Replied? ==> r == GetErrorCodeToReturn(c.(authCookie := answer.authCookie), answer.result))
  {
    LoginWith(c, transport, token => TwoFactorLoginRequest(username, password, token, twoFactorCode))
  }

  // ---------------------------------------------------------------------
  // Findings: the uninitialised store field
  // ---------------------------------------------------------------------

  /** As written, the first successful login on a freshly constructed client throws. */
  lemma AsWrittenPassLoginThrows(res: Node)
    requires GetString(res, StatusPath) == "PASS"
    ensures GetErrorCodeToReturn(NewClientAsWritten(), res).code == Err(NullPointer)
    ensures GetErrorCodeToReturn(NewClientAsWritten(), res).client.store.None?
  {
  }

  /** With the store installed, a PASS on a fresh client persists the login and its cookie. */
  lemma CorrectedPassLoginPersists(store: KvStore.Store, res: Node)
    requires GetString(res, StatusPath) == "PASS"
    ensures var r := GetErrorCodeToReturn(NewClient(store), res);
            && r.code == Ok("PASS")
            && r.client.isLoggedIn
            && r.client.store.Some?
            && RecordsLoggedIn(r.client.store.value, store, NewClient(store).authCookie)
  {
  }

  // ---------------------------------------------------------------------
  // Upload log events
  // ---------------------------------------------------------------------

  datatype LogEvent = LogEvent(pageId: string, title: string, timestamp: Date)

  /** The events of one page and the cursor for the next one ("" when there is none). */
  datatype LogEventResult = LogEventResult(events: seq<LogEvent>, continueFrom: string)

  /** parseMWDate: the parsed date, or the RuntimeException wrapping a ParseException. */
  function ParseMwDate(parse: DateParser, s: string): (r: Result<Date>)
    ensures r.Ok? <==> parse(s).Some?
    ensures r.Ok? ==> r.value == parse(s).value
    ensures r.Err? ==> r.error == DateParse
  {
    match parse(s)
    case None => Err(DateParse)
    case Some(d) => Ok(d)
  }

  /** The logevents query: fixed fields always, leend and lestart only when given. */
  function LogEventsRequest(user: string, lastModified: Option<string>, queryContinue: Option<string>, limit: int): (r: Request)
    ensures r.verb == Get
    ensures HasParam(r, "action", Text("query")) && HasParam(r, "list", Text("logevents"))
    ensures HasParam(r, "letype", Text("upload")) && HasParam(r, "leprop", Text("title|timestamp|ids"))
    ensures HasParam(r, "leuser", Text(user)) && HasParam(r, "lelimit", Number(limit))
    ensures "leend" in r.params <==> !IsNullOrEmpty(lastModified)
    ensures "leend" in r.params ==> r.params["leend"] == Text(lastModified.value)
    ensures "lestart" in r.params <==> !IsNullOrEmpty(queryContinue)
    ensures "lestart" in r.params ==> r.params["lestart"] == Text(queryContinue.value)
    ensures r.params.Keys <= {"action", "list", "letype", "leprop", "leuser", "lelimit", "leend", "lestart"}
  {
    var fixed := map[
      "action" := Text("query"),
      "list" := Text("logevents"),
      "letype" := Text("upload"),
      "leprop" := Text("title|timestamp|ids"),
      "leuser" := Text(user),
      "lelimit" := Number(limit)];
    var withEnd := if IsNullOrEmpty(lastModified) then fixed else fixed["leend" := Text(lastModified.value)];
    var withStart := if IsNullOrEmpty(queryContinue) then withEnd else withEnd["lestart" := Text(queryContinue.value)];
    Request(Get, withStart)
  }

  /** The event a single item node describes, given its parsed timestamp. */
  function EventOf(item: Node, timestamp: Date): LogEvent
  {
    LogEvent(GetString(item, "@pageid"), GetString(item, "@title"), timestamp)
  }

  /**
   * getLogEventsFromResult over the item nodes: one event per node, in node
   * order; an unparseable timestamp aborts the whole list.
   */
  function LogEventsOf(items: seq<Node>, parse: DateParser): (r: Result<seq<LogEvent>>)
    ensures r.Ok? <==> forall i :: 0 <= i < |items| ==> parse(GetString(items[i], "@timestamp")).Some?
    ensures r.Err? ==> r.error == DateParse
    ensures r.Ok? ==> |r.value| == |items|
    ensures r.Ok? ==> forall i :: 0 <= i < |items| ==>
      r.value[i] == EventOf(items[i], parse(GetString(items[i], "@timestamp")).value)
  {
    if items == [] then Ok([])
    else
      match ParseMwDate(parse, GetString(items[0], "@timestamp"))
      case Err(e) => Err(e)
      case Ok(d) =>
        match LogEventsOf(items[1..], parse)
        case Err(e) => Err(e)
        case Ok(rest) => Ok([EventOf(items[0], d)] + rest)
  }

  /** logEvents: one GET, the events of its item nodes, and the next lestart cursor. */
  function LogEvents(transport: Transport, parse: DateParser, user: string, lastModified: Option<string>,
                     queryContinue: Option<string>, limit: int): (r: Result<LogEventResult>)
    ensures transport(LogEventsRequest(user, lastModified, queryContinue, limit)).IoFailure? ==> r == Err(Io)
    ensures transport(LogEventsRequest(user, lastModified, queryContinue, limit)).Replied? ==>
      var res := transport(LogEventsRequest(user, lastModified, queryContinue, limit)).result;
      var items := GetNodes(res, "/api/query/logevents/item");
      && (r.Ok? <==> LogEventsOf(items, parse).Ok?)
      && (r.Ok? ==> r.value.events == LogEventsOf(items, parse).value
                    && r.value.continueFrom == GetString(res, "/api/query-continue/logevents/@lestart"))
  {
    match transport(LogEventsRequest(user, lastModified, queryContinue, limit))
    case IoFailure => Err(Io)
    case Replied(res, _) =>
      match LogEventsOf(GetNodes(res, "/api/query/logevents/item"), parse)
      case Err(e) => Err(e)
      case Ok(events) => Ok(LogEventResult(events, GetString(res, "/api/query-continue/logevents/@lestart")))
  }

  // ---------------------------------------------------------------------
  // Block check and logout
  // ---------------------------------------------------------------------

  const BlockExpiryPath := "/api/query/userinfo/@blockexpiry"

  /** The userinfo query asking for block information. */
  function BlockInfoRequest(): (r: Request)
    ensures r.verb == Get && HasParam(r, "action", Text("query")) && HasParam(r, "format", Text("xml"))
    ensures HasParam(r, "meta", Text("userinfo")) && HasParam(r, "uiprop", Text("blockinfo"))
    ensures "username" !in r.params && "leuser" !in r.params
  {
    Request(Get, map["action" := Text("query"), "format" := Text("xml"), "meta" := Text("userinfo"), "uiprop" := Text("blockinfo")])
  }

  /**
   * isUserBlockedFromCommons: an "infinite" expiry blocks, an empty one does
   * not, any other expiry blocks iff it parses to a date after `now`; every
   * exception on the way (transport or parse) means "not blocked".
   */
  function IsUserBlockedFromCommons(transport: Transport, parse: DateParser, now: Date): (blocked: bool)
    ensures transport(BlockInfoRequest()).IoFailure? ==> !blocked
    ensures transport(BlockInfoRequest()).Replied? ==>
      var expiry := GetString(transport(BlockInfoRequest()).result, BlockExpiryPath);
      && (expiry == "infinite" ==> blocked)
      && (expiry == "" ==> !blocked)
      && (expiry != "infinite" && expiry != "" && parse(expiry).None? ==> !blocked)
      && (expiry != "infinite" && expiry != "" && parse(expiry).Some? ==> (blocked <==> parse(expiry).value > now))
  {
    match transport(BlockInfoRequest())
    case IoFailure => false
    case Replied(res, _) =>
      var expiry := GetString(res, BlockExpiryPath);
      if expiry == "infinite" then true
      else if expiry != "" then
        match ParseMwDate(parse, expiry)
        case Err(_) => false
        case Ok(end) => end > now
      else false
  }

  /** A block never holds without an answer carrying a non-empty expiry. */
  lemma BlockedNeedsExpiry(transport: Transport, parse: DateParser, now: Date)
    requires IsUserBlockedFromCommons(transport, parse, now)
    ensures transport(BlockInfoRequest()).Replied?
    ensures GetString(transport(BlockInfoRequest()).result, BlockExpiryPath) != ""
  {
  }

  /**
   * logout: the remote call's IOException is logged and swallowed, so the
   * caller gets a normal return, and the key/value store is left as it was.
   * Unchecked exceptions from the remote call are not modelled.
   */
  function Logout(c: Client, remote: Reply): (r: Result<Client>)
    ensures r.Ok?
    ensures r.value.store == c.store
  {
    match remote
    case IoFailure => Ok(c)
    case Replied(_, _) => Ok(c)
  }
}

=== FILE: sub_depiction_list_presenter.dfy ===
/**
 * SubDepictionListPresenter: the parent/child class list of a depicted
 * item. The state is the attached view and the accumulated result list;
 * each step reports the calls it makes on the view, in order.
 */
module SubDepictionListPresenter {

  import opened Wrappers

  /**
   * The structured-data depicted item this presenter lists. The presenter
   * never reads its fields, so the model leaves it abstract.
   */
  type DepictedItem(==)

  /**
   * The presenter's view: the reflective dummy, on which every call does
   * nothing and returns null, or a view attached by the UI (identified by
   * an opaque number).
   */
  datatype ViewSlot = Dummy | Attached(viewId: nat)

  /** The calls the presenter makes on its view. */
  datatype ViewCall =
    | InitErrorView
    | SetIsLastPage(isLastPage: bool)
    | OnSuccess(items: seq<DepictedItem>)
    | ShowSnackbar

  /**
   * The presenter's state: its view, the items loaded so far, and the query
   * text. The class never assigns the query itself; it stays null (None)
   * until code in the same package sets the field.
   */
  datatype Presenter = Presenter(view: ViewSlot, queryList: seq<DepictedItem>, query: Option<string>)

  /**
   * The presenter after one step, the view calls the step made, in order,
   * and whether the last of them threw an exception out of the step.
   */
  datatype Step = Step(presenter: Presenter, calls: seq<ViewCall>, threw: bool)

  /** A fresh presenter: dummy view, nothing loaded, no query. */
  function NewPresenter(): (p: Presenter)
    ensures p.view.Dummy? && p.queryList == [] && p.query.None?
  {
    Presenter(Dummy, [], None)
  }

  // ---------------------------------------------------------------------
  // Attaching and detaching the view
  // ---------------------------------------------------------------------

  function OnAttachView(p: Presenter, viewId: nat): (r: Presenter)
    ensures r.view == Attached(viewId)
    ensures r.queryList == p.queryList && r.query == p.query
  {
    p.(view := Attached(viewId))
  }

  function OnDetachView(p: Presenter): (r: Presenter)
    ensures r.view.Dummy?
    ensures r.queryList == p.queryList && r.query == p.query
  {
    p.(view := Dummy)
  }

  /** Detaching undoes attaching: the loaded list survives, the view is the dummy again. */
  lemma DetachUndoesAttach(p: Presenter, viewId: nat)
    requires p.view.Dummy?
    ensures OnDetachView(OnAttachView(p, viewId)) == p
  {
  }

  // ---------------------------------------------------------------------
  // Results
  // ---------------------------------------------------------------------

  /**
   * The view throws on this call: `throws` says which calls the attached
   * view would throw on; the dummy view never throws.
   */
  predicate ViewThrows(p: Presenter, throws: ViewCall -> bool, call: ViewCall)
  {
    p.view.Attached? && throws(call)
  }

  /** A null or empty result list. */
  predicate IsNullOrEmptyList(items: Option<seq<DepictedItem>>)
  {
    items.None? || items.value == []
  }

  /**
   * handleSuccess: an empty page with nothing loaded reports an error view,
   * an empty page after earlier results marks the last page, and a
   * non-empty page is appended and handed to the view. Nothing catches a
   * throwing view call, so its exception leaves the step; a page handed to
   * a throwing onSuccess has already been appended.
   */
  function HandleSuccess(p: Presenter, mediaList: Option<seq<DepictedItem>>, throws: ViewCall -> bool): (r: Step)
    ensures IsNullOrEmptyList(mediaList) && p.queryList == [] ==>
      r == Step(p, [InitErrorView], ViewThrows(p, throws, InitErrorView))
    ensures IsNullOrEmptyList(mediaList) && p.queryList != [] ==>
      r == Step(p, [SetIsLastPage(true)], ViewThrows(p, throws, SetIsLastPage(true)))
    ensures !IsNullOrEmptyList(mediaList) ==>
      && r.presenter.queryList == p.queryList + mediaList.value
      && r.calls == [OnSuccess(mediaList.value)]
      && (r.threw <==> ViewThrows(p, throws, OnSuccess(mediaList.value)))
    ensures |p.queryList| <= |r.presenter.queryList| && r.presenter.queryList[..|p.queryList|] == p.queryList
    ensures r.presenter.view == p.view && r.presenter.query == p.query
  {
    if IsNullOrEmptyList(mediaList) then
      if p.queryList == [] then Step(p, [InitErrorView], ViewThrows(p, throws, InitErrorView))
      else Step(p, [SetIsLastPage(true)], ViewThrows(p, throws, SetIsLastPage(true)))
    else
      var call := OnSuccess(mediaList.value);
      Step(p.(queryList := p.queryList + mediaList.value), [call], ViewThrows(p, throws, call))
  }

  /**
   * handleError: show the error view, then the snackbar. A view call that
   * throws ends the attempt but the exception is swallowed: the step always
   * returns normally and the state is unchanged.
   */
  function HandleError(p: Presenter, throws: ViewCall -> bool): (r: Step)
    ensures r.presenter == p && !r.threw
    ensures 1 <= |r.calls| <= 2 && r.calls[0] == InitErrorView
    ensures ShowSnackbar in r.calls <==> !ViewThrows(p, throws, InitErrorView)
    ensures ShowSnackbar in r.calls ==> r.calls == [InitErrorView, ShowSnackbar]
  {
    if ViewThrows(p, throws, InitErrorView) then Step(p, [InitErrorView], false)
    else Step(p, [InitErrorView, ShowSnackbar], false)
  }

  /** The items of a run of pages, null pages contributing nothing. */
  function Flatten(pages: seq<Option<seq<DepictedItem>>>): seq<DepictedItem>
  {
    if pages == [] then []
    else (if pages[0].None? then [] else pages[0].value) + Flatten(pages[1..])
  }

  /** handleSuccess applied to each page in turn (whether or not a view call threw). */
  function HandlePages(p: Presenter, pages: seq<Option<seq<DepictedItem>>>, throws: ViewCall -> bool): Presenter
    decreases |pages|
  {
    if pages == [] then p else HandlePages(HandleSuccess(p, pages[0], throws).presenter, pages[1..], throws)
  }

  /**
   * After any run of pages the list is the old list followed by every
   * page's items, in order, even when the view threw on some of them.
   */
  lemma {:induction false} HandlePagesAccumulates(p: Presenter, pages: seq<Option<seq<DepictedItem>>>, throws: ViewCall -> bool)
    ensures HandlePages(p, pages, throws).queryList == p.queryList + Flatten(pages)
    ensures HandlePages(p, pages, throws).view == p.view
    decreases |pages|
  {
    if pages != [] {
      var q := HandleSuccess(p, pages[0], throws).presenter;
      HandlePagesAccumulates(q, pages[1..], throws);
      assert q.queryList == p.queryList + (if pages[0].None? then [] else pages[0].value);
    }
  }

  // ---------------------------------------------------------------------
  // Loading the class list
  // ---------------------------------------------------------------------

  /** The two queries of the JSON API client the presenter can issue. */
  datatype ClassQuery = ParentQids(qid: string) | ChildQids(qid: string)

  /** What a query delivers to the subscriber: a (possibly null) list, or an error. */
  datatype Emission = Delivered(items: Option<seq<DepictedItem>>) | Failed

  datatype LoadStep = LoadStep(issued: ClassQuery, step: Step)

  /**
   * initSubDepictionList: parent classes are requested iff isParentClass,
   * child classes otherwise; the answer goes to handleSuccess or
   * handleError. An exception thrown by handleSuccess is handed by the
   * subscriber to handleError, so nothing escapes the subscription. The
   * queries themselves are not part of this model.
   */
  function InitSubDepictionList(p: Presenter, qid: string, isParentClass: bool,
                                answer: ClassQuery -> Emission, throws: ViewCall -> bool): (r: LoadStep)
    ensures r.issued.qid == qid
    ensures r.issued.ParentQids? <==> isParentClass
    ensures !r.step.threw
    ensures answer(r.issued).Delivered? ==>
      var s := HandleSuccess(p, answer(r.issued).items, throws);
      && (!s.threw ==> r.step == s)
      && (s.threw ==> r.step.presenter == s.presenter
                      && r.step.calls == s.calls + HandleError(s.presenter, throws).calls)
    ensures answer(r.issued).Failed? ==> r.step == HandleError(p, throws)
  {
    var q := if isParentClass then ParentQids(qid) else ChildQids(qid);
    match answer(q)
    case Delivered(items) =>
      var s := HandleSuccess(p, items, throws);
      if s.threw then
        var e := HandleError(s.presenter, throws);
        LoadStep(q, Step(e.presenter, s.calls + e.calls, false))
      else LoadStep(q, s)
    case Failed => LoadStep(q, HandleError(p, throws))
  }

  // ---------------------------------------------------------------------
  // Recent searches
  // ---------------------------------------------------------------------

  /** A recent search; its query text may be null, as the presenter's may be. */
  datatype RecentSearch = RecentSearch(id: Option<int>, query: Option<string>, lastSearched: Date)

  /**
   * The recent-searches table by query text (null included), and the log of
   * every save issued.
   */
  datatype RecentSearchesDao = RecentSearchesDao(rows: map<Option<string>, RecentSearch>, saves: seq<RecentSearch>)

  /** Every row is filed under its own query text. */
  ghost predicate FiledByQuery(dao: RecentSearchesDao)
  {
    forall q :: q in dao.rows ==> dao.rows[q].query == q
  }

  function Find(dao: RecentSearchesDao, query: Option<string>): Option<RecentSearch>
  {
    if query in dao.rows then Some(dao.rows[query]) else None
  }

  function Save(dao: RecentSearchesDao, rs: RecentSearch): RecentSearchesDao
  {
    RecentSearchesDao(dao.rows[rs.query := rs], dao.saves + [rs])
  }

  /**
   * saveQuery: create a record for a query not seen before, otherwise bump
   * the found record's lastSearched; either way save exactly once. A null
   * query is looked up and saved like any other.
   */
  function SaveQuery(p: Presenter, dao: RecentSearchesDao, now: Date): (r: RecentSearchesDao)
    ensures |r.saves| == |dao.saves| + 1 && r.saves[..|dao.saves|] == dao.saves
    ensures Find(dao, p.query).None? ==> r.saves[|dao.saves|] == RecentSearch(None, p.query, now)
    ensures Find(dao, p.query).Some? ==> r.saves[|dao.saves|] == Find(dao, p.query).value.(lastSearched := now)
    ensures FiledByQuery(dao) ==> FiledByQuery(r) && Find(r, p.query) == Some(r.saves[|dao.saves|])
    ensures FiledByQuery(dao) ==> forall q :: q != p.query ==> Find(r, q) == Find(dao, q)
  {
    var rs := match Find(dao, p.query)
      case None => RecentSearch(None, p.query, now)
      case Some(found) => found.(lastSearched := now);
    Save(dao, rs)
  }
}

=== FILE: upload_media_detail.dfy ===
/**
 * UploadMediaDetail: one language/description pair of an upload, and the
 * serialisation of a list of them into "{{lang|1=text}}" templates.
 * Java null strings are None.
 */
module UploadMediaDetail {

  import opened Wrappers

  datatype UploadMediaDetail = UploadMediaDetail(
    languageCode: Option<string>,
    descriptionText: Option<string>,
    captionText: Option<string>,
    selectedLanguageIndex: int,
    isManuallyAdded: bool)

  /** A new detail: no language, no texts, no language selected, not manually added. */
  function NewDetail(): (d: UploadMediaDetail)
    ensures d.languageCode.None? && d.descriptionText.None? && d.captionText.None?
    ensures d.selectedLanguageIndex == -1 && !d.isManuallyAdded
    ensures IsEmpty(d)
  {
    UploadMediaDetail(None, None, None, -1, false)
  }

  function SetLanguageCode(d: UploadMediaDetail, code: Option<string>): (e: UploadMediaDetail)
    ensures e.languageCode == code && e.(languageCode := d.languageCode) == d
  {
    d.(languageCode := code)
  }

  function SetDescriptionText(d: UploadMediaDetail, text: Option<string>): (e: UploadMediaDetail)
    ensures e.descriptionText == text && e.(descriptionText := d.descriptionText) == d
  {
    d.(descriptionText := text)
  }

  function SetCaptionText(d: UploadMediaDetail, text: Option<string>): (e: UploadMediaDetail)
    ensures e.captionText == text && e.(captionText := d.captionText) == d
  {
    d.(captionText := text)
  }

  function SetSelectedLanguageIndex(d: UploadMediaDetail, index: int): (e: UploadMediaDetail)
    ensures e.selectedLanguageIndex == index && e.(selectedLanguageIndex := d.selectedLanguageIndex) == d
  {
    d.(selectedLanguageIndex := index)
  }

  function SetManuallyAdded(d: UploadMediaDetail, manuallyAdded: bool): (e: UploadMediaDetail)
    ensures e.isManuallyAdded == manuallyAdded && e.(isManuallyAdded := d.isManuallyAdded) == d
  {
    d.(isManuallyAdded := manuallyAdded)
  }

  /** isEmpty: a detail has content exactly when its description text is present and non-empty. */
  predicate IsEmpty(d: UploadMediaDetail)
    ensures d.descriptionText.None? ==> IsEmpty(d)
    ensures d.descriptionText == Some("") ==> IsEmpty(d)
    ensures !IsEmpty(d) ==> d.descriptionText.Some? && |d.descriptionText.value| > 0
  {
    IsNullOrEmpty(d.descriptionText)
  }

  /** Emptiness is decided by the description text alone. */
  lemma IsEmptyReadsOnlyDescription(d: UploadMediaDetail, e: UploadMediaDetail)
    requires d.descriptionText == e.descriptionText
    ensures IsEmpty(d) == IsEmpty(e)
  {
  }

  /** String.format's "%s" of a possibly null string. */
  function FormatArg(s: Option<string>): string
  {
    match s
    case None => "null"
    case Some(v) => v
  }

  /** What one detail contributes: nothing when empty, else "{{lang|1=text}}". */
  function Piece(d: UploadMediaDetail): (s: string)
    ensures IsEmpty(d) <==> s == ""
  {
    if IsEmpty(d) then ""
    else "{{" + FormatArg(d.languageCode) + "|1=" + d.descriptionText.value + "}}"
  }

  /** The pieces of the elements, concatenated in order. */
  function ConcatMap<T>(xs: seq<T>, piece: T -> string): string
    decreases |xs|
  {
    if xs == [] then "" else piece(xs[0]) + ConcatMap(xs[1..], piece)
  }

  lemma {:induction false} ConcatMapAppend<T>(a: seq<T>, b: seq<T>, piece: T -> string)
    ensures ConcatMap(a + b, piece) == ConcatMap(a, piece) + ConcatMap(b, piece)
    decreases |a|
  {
    if a == [] {
      assert a + b == b;
    } else {
      ConcatMapAppend(a[1..], b, piece);
      assert (a + b)[1..] == a[1..] + b;
      assert (a + b)[0] == a[0];
    }
  }

  /** The concatenation is empty exactly when every piece is. */
  lemma {:induction false} ConcatMapEmptyIff<T>(xs: seq<T>, piece: T -> string)
    ensures ConcatMap(xs, piece) == "" <==> forall i :: 0 <= i < |xs| ==> piece(xs[i]) == ""
    decreases |xs|
  {
    if xs != [] {
      ConcatMapEmptyIff(xs[1..], piece);
      assert forall i :: 1 <= i < |xs| ==> xs[i] == xs[1..][i - 1];
    }
  }

  /**
   * formatList: the pieces of the details, concatenated in list order; the
   * result is "" exactly when every detail is empty (including no details).
   */
  function FormatList(ds: seq<UploadMediaDetail>): (s: string)
    ensures s == "" <==> forall i :: 0 <= i < |ds| ==> IsEmpty(ds[i])
  {
    ConcatMapEmptyIff(ds, Piece);
    ConcatMap(ds, Piece)
  }

  /** Formatting distributes over list concatenation. */
  lemma FormatListAppend(a: seq<UploadMediaDetail>, b: seq<UploadMediaDetail>)
    ensures FormatList(a + b) == FormatList(a) + FormatList(b)
  {
    ConcatMapAppend(a, b, Piece);
  }

  /**
   * A single detail renders as "{{lang|1=text}}", with "null" for a null
   * language, or as nothing when it is empty. With FormatListAppend this
   * fixes formatList on every list.
   */
  lemma {:induction false} FormatListSingleton(d: UploadMediaDetail)
    ensures FormatList([d]) ==
      if IsEmpty(d) then "" else "{{" + FormatArg(d.languageCode) + "|1=" + d.descriptionText.value + "}}"
  {
    assert [d][1..] == [];
    assert ConcatMap([d], Piece) == Piece(d) + ConcatMap([d][1..], Piece);
  }

  /** An English description followed by one with no language. */
  lemma {:induction false} FormatListExample()
    ensures FormatList([
      UploadMediaDetail(Some("en"), Some("a"), None, -1, false),
      UploadMediaDetail(None, Some("b"), None, -1, false)]) == "{{en|1=a}}{{null|1=b}}"
  {
    var en := UploadMediaDetail(Some("en"), Some("a"), None, -1, false);
    var none := UploadMediaDetail(None, Some("b"), None, -1, false);
    FormatListAppend([en], [none]);
    FormatListSingleton(en);
    FormatListSingleton(none);
    assert [en, none] == [en] + [none];
  }

  /** Only the language code and description text matter; caption text and the rest do not. */
  lemma {:induction false} FormatListReadsOnlyDescriptions(ds: seq<UploadMediaDetail>, es: seq<UploadMediaDetail>)
    requires |ds| == |es|
    requires forall i :: 0 <= i < |ds| ==>
      ds[i].languageCode == es[i].languageCode && ds[i].descriptionText == es[i].descriptionText
    ensures FormatList(ds) == FormatList(es)
    decreases |ds|
  {
    if ds != [] {
      FormatListReadsOnlyDescriptions(ds[1..], es[1..]);
    }
  }

  /**
   * formatCaptions: the StringBuilder loop over the details. It reads the
   * description text, not the caption text, and so agrees with formatList.
   */
  method FormatCaptions(ds: seq<UploadMediaDetail>) returns (s: string)
    ensures s == FormatList(ds)
  {
    s := "";
    var i := 0;
    while i < |ds|
      invariant 0 <= i <= |ds|
      invariant s == FormatList(ds[..i])
    {
      if !IsEmpty(ds[i]) {
        var individual := "{{" + FormatArg(ds[i].languageCode) + "|1=" + ds[i].descriptionText.value + "}}";
        s := s + individual;
      }
      FormatListAppend(ds[..i], [ds[i]]);
      assert [ds[i]][1..] == [];
      assert FormatList([ds[i]]) == Piece(ds[i]);
      assert ds[..i + 1] == ds[..i] + [ds[i]];
      i := i + 1;
    }
    assert ds[..i] == ds;
  }
}

=== FILE: wrappers.dfy ===
/**
 * Java's null references and thrown exceptions as datatypes, and the dates
 * and date parsers the components share.
 */
module Wrappers {

  /** A nullable Java reference: None stands for null. */
  datatype Option<+T> = None | Some(value: T)

  /** The exceptions the modelled code can raise or let escape. */
  datatype Exception =
    | NullPointer        // a method invoked on a null field
    | Io                 // IOException from the HTTP transport
    | DateParse          // RuntimeException wrapping a ParseException

  /** A Java call that either returns a value or throws. */
  datatype Result<+R> = Ok(value: R) | Err(error: Exception)

  /** TextUtils.isEmpty and the null-or-"" tests of the source: a null or zero-length string. */
  predicate IsNullOrEmpty(s: Option<string>)
  {
    s.None? || |s.value| == 0
  }

  /** A java.util.Date, as its millisecond count. */
  type Date = int

  /** A date parser: Some(date), or None where the Java parser throws ParseException. */
  type DateParser = string -> Option<Date>
}
